=== FILE: README.md ===
# Undo/redo history of a text editor, in Dafny

This project models the history manager of a small React text editor
(`TextUndoRedo.ts`). The editor keeps four pieces of state:

- `text`, the buffer;
- `undoStack`, oldest first, seeded with the empty text; its top stands for the committed state;
- `redoStack`, next redo first;
- one pending debounce timer.

Its handlers are:

- `saveState`, a deduplicating checkpoint;
- `undo` and `redo`;
- the key handler: Ctrl+z, Ctrl+y, and Backspace as a checkpoint;
- the change handler. It checkpoints the old buffer when the new text ends
  at a word boundary (`/[\s\W]/` on the last character), re-arms the
  debounce timer with the new text, and shows the new text.

Files:

- `wrappers.dfy`: module `Wrappers`, the `Option` type used for the pending slot.
- `word_boundary.dfy`: module `WordBoundary`. It models the regular-expression test, including
  JavaScript's coercion of `undefined` to the string `"undefined"` when the new text is empty. It
  proves that the test holds exactly when the text is non-empty and its last character is outside
  `[A-Za-z0-9_]`.
- `history_spec.dfy`: module `HistorySpec`. It holds the state as a value (`EditorState`) and each
  handler as a function from state to state, with lemmas about single steps.
- `history_runs.dfy`: module `HistoryRuns`. It holds lemmas about runs: repeated undo and redo,
  edits each committed by their timer, bursts of edits coalesced by the timer, and a worked
  example.
- `editor.dfy`: module `Editor`, the class `History`. Its fields are updated in place by methods
  that mirror the handlers. Each method is proved to take the object from `State()` to the
  corresponding `HistorySpec` function of the old state, and to keep the invariant `Valid()`.

The debounce timer is the slot `pending: Option<string>`. Arming it stores the text captured at
the edit. That overwrites any earlier content, which models `clearTimeout`. `Fire` is the timer
callback: it checkpoints the stored text and empties the slot.

Behaviour of the code that a reader might not expect, and which the model follows:

- The undo stack starts as `[""]`, not empty. Undo does nothing while only that seed remains, so
  the seed is never removed.
- Undo shows the entry *below* the top of the undo stack, not the entry it removes.
- Redo pushes the restored text onto the undo stack, not the buffer it replaces.
- The redo stack is pushed and popped at its front.
- Consequence: type `a`, then `a ` before the timer fires, then undo. The buffer becomes `""`, not
  `a` (`HistoryRuns.ScenarioBeforeTimer`). In the code this is so even when the timer fired
  before the undo. Its callback checkpoints against the undo stack captured at the edit, `[""]`,
  so it replaces the boundary checkpoint `a` and leaves `["", "a "]`
  (`HistoryRuns.ScenarioAfterTimerCaptured`).
- An enabled undo followed by redo restores the whole state only when the buffer was equal to the
  top of the undo stack (`HistorySpec.UndoThenRedo`). Otherwise the previous top is replaced by
  the buffer.
- The redo branch survives an edit made right after an undo. After undo the buffer is the top of
  the undo stack, so the edit's boundary checkpoint is absorbed and the redo stack is kept. Redo
  then replaces the text just typed with the undone text. The edit itself does not clear the redo
  stack. The next checkpoint of a text other than the top does: the edit's timer, a Backspace, or
  a later boundary edit (`HistorySpec.EditAfterUndoKeepsRedo`).
- Undo followed by redo is not the identity when undo is disabled. Undo then does nothing, and
  redo shows the head of the redo stack (`HistorySpec.DisabledUndoThenRedo`). For example, commit
  `a` and undo it, giving `("", [""], ["a"])`; undo then redo shows `a`
  (`HistoryRuns.ScenarioDisabledUndoThenRedo`).
- The undo stack can hold two equal adjacent entries. Redo pushes the restored text without the
  deduplicating check, so when that text is already on top it appears twice, and the next undo
  leaves the buffer unchanged (`HistorySpec.RedoCanDuplicateTop`). For example, commit `a` and
  `ab`, edit back to `a`, then undo and redo: the stack is `["", "a", "a"]`
  (`HistoryRuns.ScenarioAdjacentDuplicates`).

## Model

| member | source | states |
|---|---|---|
| `WordBoundary.IsWordBoundary` | TextUndoRedo.ts:47-49 | `/[\s\W]/` tested on the last character (or on `"undefined"` for an empty text) holds iff the text is non-empty and its last character is not in `[A-Za-z0-9_]` |
| `WordBoundary.SpaceIsNonWord` | TextUndoRedo.ts:49 | every `\s` character is a `\W` character, so the class `[\s\W]` is the complement of `[A-Za-z0-9_]` |
| `WordBoundary.UndefinedIsNotBoundary` | TextUndoRedo.ts:48-49 | the string `"undefined"` contains no character of the class, so an empty new text is never a boundary |
| `HistorySpec.Init` | TextUndoRedo.ts:4-7 | the initial state satisfies the invariant, shows the top of the undo stack, has nothing to undo or redo and no pending timer |
| `HistorySpec.SaveState` | TextUndoRedo.ts:9-14 | after a checkpoint the content is on top of the undo stack; the buffer and the pending timer are untouched; the redo stack is either kept or emptied |
| `HistorySpec.Undo` | TextUndoRedo.ts:16-23 | undo leaves a prefix of the undo stack and the pending timer untouched, and keeps the total number of entries on both stacks |
| `HistorySpec.Redo` | TextUndoRedo.ts:25-32 | redo only extends the undo stack, leaves the pending timer untouched, and keeps the total number of entries on both stacks |
| `HistorySpec.KeyDown` | TextUndoRedo.ts:34-44 | no key touches the pending timer, and a key adds at most one entry to the two stacks together |
| `HistorySpec.TextChange` | TextUndoRedo.ts:46-64 | an edit shows the new text and arms the timer with it; the undo stack either stays or gains exactly the old buffer |
| `HistorySpec.Fire` | TextUndoRedo.ts:59-61 | the timer callback empties the pending slot, leaves the buffer, and when something was pending leaves it on top of the undo stack |
| `HistorySpec.SaveStateEffect` | TextUndoRedo.ts:9-14 | a checkpoint is a no-op iff the content is already on top; otherwise it appends the content and empties the redo stack, and nothing else changes; either way the content ends on top |
| `HistorySpec.SaveStateIdempotent` | TextUndoRedo.ts:9-14 | two checkpoints of the same content equal one, and a checkpoint adds at most one entry |
| `HistorySpec.UndoEffect` | TextUndoRedo.ts:16-23 | an enabled undo shows the second-from-top entry, prepends the old buffer to the redo stack, drops exactly the last undo entry, keeps the pending slot, and leaves the buffer equal to the new top |
| `HistorySpec.RedoEffect` | TextUndoRedo.ts:25-32 | an enabled redo shows the head of the redo stack, appends it to the undo stack, drops it from the redo stack, keeps the pending slot and the total number of entries |
| `HistorySpec.DisabledIsNoOp` | TextUndoRedo.ts:16-32 | undo leaves the whole state unchanged iff the undo stack has at most one entry; redo iff the redo stack is empty |
| `HistorySpec.UndoThenRedo` | TextUndoRedo.ts:16-32 | after an enabled undo, redo restores the buffer, the redo stack and the pending slot, and restores the whole state iff the buffer equalled the top of the undo stack |
| `HistorySpec.DisabledUndoThenRedo` | TextUndoRedo.ts:16-32 | when undo is disabled and redo is not, undo then redo equals redo alone, shows the head of the redo stack and changes the state |
| `HistorySpec.RedoCanDuplicateTop` | TextUndoRedo.ts:25-32 | redo of a text already on top of the undo stack leaves the two top entries equal, and the next undo shows the same buffer |
| `HistorySpec.KeyDownDispatch` | TextUndoRedo.ts:34-44 | Ctrl+z is undo and Ctrl+y is redo, so neither checkpoints; Backspace checkpoints the buffer; every other key leaves the state unchanged |
| `HistorySpec.TextChangeEffect` | TextUndoRedo.ts:46-64 | an edit always ends with the new text shown and pending; it checkpoints the old buffer iff the new text is non-empty and ends outside `[A-Za-z0-9_]`, and otherwise leaves both stacks alone |
| `HistorySpec.BoundaryEditCommitsOldText` | TextUndoRedo.ts:48-53 | a boundary edit from a buffer that is not on top of the undo stack pushes that buffer at once and empties the redo stack |
| `HistorySpec.FireEffect` | TextUndoRedo.ts:59-61 | the timer firing with nothing pending is a no-op; otherwise it checkpoints the captured text, which ends on top, and clears the slot |
| `HistorySpec.EditThenFireSyncs` | TextUndoRedo.ts:46-64 | an edit whose timer then fires leaves the new text shown, committed on top of the undo stack, with nothing pending |
| `HistorySpec.CommitDiscardsRedo` | TextUndoRedo.ts:46-64 | whenever an edit or a timer actually adds an undo entry, the redo stack is empty and redo is a no-op |
| `HistorySpec.EditAfterUndoKeepsRedo` | TextUndoRedo.ts:10-63 | an edit right after an enabled undo keeps the redo stack (with the undone text at its head), so redo then shows the undone text; when the edited text differs from the top, the edit's timer, a Backspace or a later boundary edit empties it |
| `HistorySpec.OperationsPreserveValid` | TextUndoRedo.ts:4-64 | every handler keeps the undo stack non-empty with the empty seed at its bottom |
| `HistoryRuns.UndoNShape` | TextUndoRedo.ts:16-23 | from a state showing the top, `n` undos (fewer than the stack length) show the entry `n` below the top, keep the entries beneath it, and move the `n` removed entries in order to the front of the redo stack |
| `HistoryRuns.UndoExhausts` | TextUndoRedo.ts:16-23 | undoing once per entry above the seed, or more, leaves the empty buffer over the seed alone, with every undone entry on the redo stack, and a further undo changes nothing |
| `HistoryRuns.RedoNUndoN` | TextUndoRedo.ts:16-32 | `n` undos followed by `n` redos give back the starting state exactly |
| `HistoryRuns.CommittedEditsStack` | TextUndoRedo.ts:46-64 | edits to ever-new texts, each followed by its timer, append exactly those texts to the undo stack; the boundary checkpoint of the old buffer is absorbed by deduplication |
| `HistoryRuns.UndoAfterCommittedEdits` | TextUndoRedo.ts:4-64 | from the initial state, `N` committed edits then `j <= N` undos show the text of edit `N - j`, and the empty text after `N` undos |
| `HistoryRuns.BurstCoalesces` | TextUndoRedo.ts:46-64 | a burst of edits none of which ends at a boundary leaves both stacks unchanged and the last text shown and pending |
| `HistoryRuns.BurstThenFire` | TextUndoRedo.ts:55-61 | after such a burst, the firing timer adds at most one checkpoint, holding the burst's last text |
| `HistoryRuns.ScenarioBeforeTimer` | TextUndoRedo.ts:16-64 | typing `a` then `a `, then undo, shows `""` with `a ` to redo; redo shows `a ` and commits it in place of `a` |
| `HistoryRuns.ScenarioAfterTimer` | TextUndoRedo.ts:16-64 | under the model's current-fields callback, the same edits with the timer firing before the undo: undo shows `a`, redo shows `a ` again with an empty redo stack |
| `HistoryRuns.FireWithCapturedStack` | TextUndoRedo.ts:9-14 | the callback as the code's closure runs it: it empties the slot, keeps the buffer, and leaves the undo stack either as it is or as the captured stack extended by the pending text |
| `HistoryRuns.ScenarioAfterTimerCaptured` | TextUndoRedo.ts:9-64 | with the callback checkpointing against the undo stack captured at the `a ` edit, firing leaves `["", "a "]`, dropping the boundary checkpoint `a`, and undo then shows `""` |
| `HistoryRuns.ScenarioDisabledUndoThenRedo` | TextUndoRedo.ts:4-64 | after committing `a` and undoing it, the state is `("", [""], ["a"])`, and undo then redo shows `a`, changing the state |
| `HistoryRuns.ScenarioAdjacentDuplicates` | TextUndoRedo.ts:4-64 | committing `a` and `ab`, editing back to `a`, then undo and redo leaves `["", "a", "a"]`, and the next undo still shows `a` |
| `HistoryRuns.ScenarioCapturedTopMatches` | TextUndoRedo.ts:9-64 | from `["", "x."]` with buffer `x.y`, a boundary edit to `x.` pushes `x.y`; the captured-stack callback then does nothing, so the buffer `x.` is not on top |
| `HistoryRuns.FireCapturedAgrees` | TextUndoRedo.ts:59-60 | when the captured undo stack is still the current one, the captured-stack callback is exactly `Fire` |
| `Editor.History.constructor` | TextUndoRedo.ts:4-7 | the new object is in the initial state |
| `Editor.History.SaveState` | TextUndoRedo.ts:9-14 | the in-place checkpoint moves the object exactly as `HistorySpec.SaveState` and keeps the invariant |
| `Editor.History.Undo` | TextUndoRedo.ts:16-23 | the in-place undo moves the object exactly as `HistorySpec.Undo` and keeps the invariant |
| `Editor.History.Redo` | TextUndoRedo.ts:25-32 | the in-place redo moves the object exactly as `HistorySpec.Redo` and keeps the invariant |
| `Editor.History.HandleKeyDown` | TextUndoRedo.ts:34-44 | the key handler moves the object exactly as `HistorySpec.KeyDown` and keeps the invariant |
| `Editor.History.HandleTextChange` | TextUndoRedo.ts:46-64 | the change handler moves the object exactly as `HistorySpec.TextChange` and keeps the invariant |
| `Editor.History.Fire` | TextUndoRedo.ts:59-61 | the timer callback moves the object exactly as `HistorySpec.Fire` and keeps the invariant |

## Left out

- The rendered textarea and buttons (TextUndoRedo.ts:73-87) and the registration of the key
  listener (TextUndoRedo.ts:66-71). These are UI wiring. The buttons call the same `undo` and
  `redo` that are modelled.
- `event.preventDefault()` (TextUndoRedo.ts:36,39). It only affects the host platform, not the
  history state.
- Real timer scheduling: `window.setTimeout`, `clearTimeout` and the 1000 ms delay. The pending
  slot and the explicit `Fire` stand for them, so the model has no notion of time. When the timer
  fires is left to whoever calls `Fire`.
- React's captured-closure and batched-update semantics. In the code, the timer callback's
  `saveState` compares against the undo stack of the render in which the edit happened. It can
  therefore overwrite a boundary checkpoint pushed in the same handler. When the captured top
  already equals the edited text, the callback does nothing, so a boundary push can leave the
  edited buffer below the top (`HistoryRuns.ScenarioCapturedTopMatches`); `HistorySpec.EditThenFireSyncs`
  does not describe the code in that case. The model applies every handler to the object's
  current fields, one after another.
- Characters are UTF-16 code units in the code and Unicode scalar values in Dafny. A character
  outside the Basic Multilingual Plane is a surrogate pair in the code, and its last code unit is
  a `\W` character. In the model it is one character outside `[A-Za-z0-9_]`. Both count as a
  boundary.
- The methods of `Editor.History` require `Valid()`, the class invariant. The constructor
  establishes it and every method keeps it. The code has no such precondition because its stack
  can never become empty.
- HistoryRuns.ScenarioAfterTimer: its outcome (`["", "a", "a "]`, undo shows `a`) holds only under
  the current-fields callback. The editor itself ends with `["", "a "]`, and undo shows `""`.
  `HistoryRuns.ScenarioAfterTimerCaptured` proves that outcome with the captured-stack callback
  `HistoryRuns.FireWithCapturedStack`. That callback is used only for this comparison. The
  `Editor.History` methods and the other lemmas use `HistorySpec.Fire`.

=== FILE: editor.dfy ===
/**
 * The editor's history state as one object whose fields its handlers
 * update in place: the buffer, the two stacks and the pending debounce
 * slot. Each handler is proved to move the object from one state to the
 * next exactly as the matching function of HistorySpec does, so every
 * property proved there holds of the object.
 *
 * The timer is the pending slot: arming it stores the captured text
 * (cancelling any earlier timer by overwriting the slot), and `Fire` is the
 * callback running. Handlers read the object's current fields, not values
 * captured at an earlier render.
 */
module Editor {
  import opened Wrappers
  import WordBoundary
  import HistorySpec

  class History {
    var text: string
    var undoStack: seq<string>
    var redoStack: seq<string>
    var pending: Option<string>

    /** The abstract value of the object. */
    function State(): HistorySpec.EditorState
      reads this
    {
      HistorySpec.EditorState(text, undoStack, redoStack, pending)
    }

    ghost predicate Valid()
      reads this
    {
      HistorySpec.Valid(State())
    }

    constructor ()
      ensures Valid() && State() == HistorySpec.Init()
    {
      text := "";
      undoStack := [""];
      redoStack := [];
      pending := None;
    }

    /** Checkpoint `newText` unless it is already on top of the undo stack. */
    method SaveState(newText: string)
      requires Valid()
      modifies this
      ensures Valid()
      ensures State() == HistorySpec.SaveState(old(State()), newText)
    {
      if undoStack[|undoStack| - 1] != newText {
        undoStack := undoStack + [newText];
        redoStack := [];
      }
    }

    method Undo()
      requires Valid()
      modifies this
      ensures Valid()
      ensures State() == HistorySpec.Undo(old(State()))
    {
      if |undoStack| <= 1 {
        return;
      }
      var lastState := undoStack[|undoStack| - 2];
      redoStack := [text] + redoStack;
      text := lastState;
      undoStack := undoStack[..|undoStack| - 1];
    }

    method Redo()
      requires Valid()
      modifies this
      ensures Valid()
      ensures State() == HistorySpec.Redo(old(State()))
    {
      if |redoStack| == 0 {
        return;
      }
      var lastState := redoStack[0];
      undoStack := undoStack + [lastState];
      text := lastState;
      redoStack := redoStack[1..];
    }

    method HandleKeyDown(event: HistorySpec.KeyEvent)
      requires Valid()
      modifies this
      ensures Valid()
      ensures State() == HistorySpec.KeyDown(old(State()), event)
    {
      if event.ctrlKey && event.key == "z" {
        Undo();
      } else if event.ctrlKey && event.key == "y" {
        Redo();
      } else if event.key == "Backspace" {
        SaveState(text);
      }
    }

    /** An edit: checkpoint the old buffer at a word boundary, re-arm the timer, show `newText`. */
    method HandleTextChange(newText: string)
      requires Valid()
      modifies this
      ensures Valid()
      ensures State() == HistorySpec.TextChange(old(State()), newText)
    {
      var isWordBoundary := WordBoundary.IsWordBoundary(newText);
      if isWordBoundary {
        SaveState(text);
      }
      pending := Some(newText);
      text := newText;
    }

    /** The pending timer's callback: checkpoint the text captured at the edit, then clear the slot. */
    method Fire()
      requires Valid()
      modifies this
      ensures Valid()
      ensures State() == HistorySpec.Fire(old(State()))
    {
      if pending.Some? {
        SaveState(pending.value);
        pending := None;
      }
    }
  }
}

=== FILE: history_runs.dfy ===
/**
 * Properties of runs of the history manager: repeated undo and redo,
 * sequences of edits that each get committed, and bursts of edits that the
 * debounce slot coalesces.
 */
module HistoryRuns {
  import opened Wrappers
  import WordBoundary
  import opened HistorySpec

  /** `n` undos in a row. */
  function UndoN(s: EditorState, n: nat): EditorState {
    if n == 0 then s else Undo(UndoN(s, n - 1))
  }

  /** `n` redos in a row. */
  function RedoN(s: EditorState, n: nat): EditorState
    decreases n
  {
    if n == 0 then s else RedoN(Redo(s), n - 1)
  }

  /** The edits `ts`, in order, with no timer firing in between. */
  function Edits(s: EditorState, ts: seq<string>): EditorState
    decreases |ts|
  {
    if ts == [] then s else Edits(TextChange(s, ts[0]), ts[1..])
  }

  /** The edits `ts`, in order, each followed by its timer firing. */
  function CommittedEdits(s: EditorState, ts: seq<string>): EditorState
    decreases |ts|
  {
    if ts == [] then s else CommittedEdits(Fire(TextChange(s, ts[0])), ts[1..])
  }

  // ---------------------------------------------------------------------
  // repeated undo and redo

  /**
   * From a state whose buffer shows the top of the undo stack, `n` undos
   * (fewer than the stack's length) show the entry `n` below the top, keep
   * the entries beneath it, and put the `n` removed entries, most recent
   * last, in front of the redo stack.
   */
  lemma {:induction false} UndoNShape(s: EditorState, n: nat)
    requires Synced(s) && n < |s.undoStack|
    ensures var u := s.undoStack; var k := |u| - n;
      UndoN(s, n) == s.(text := u[k - 1], undoStack := u[..k], redoStack := u[k..] + s.redoStack)
  {
    var u := s.undoStack;
    if n == 0 {
      assert u[..|u|] == u;
      assert u[|u|..] == [];
    } else {
      UndoNShape(s, n - 1);
      var k := |u| - n;
      var t := UndoN(s, n - 1);
      assert t.undoStack == u[..k + 1];
      assert t.undoStack[..k] == u[..k];
      assert [t.text] + u[k + 1..] == u[k..];
    }
  }

  /**
   * Undoing as many times as there are entries above the seed returns to
   * the empty buffer with only the seed left, every undone entry waiting on
   * the redo stack; any further undo changes nothing.
   */
  lemma {:induction false} UndoExhausts(s: EditorState, n: nat)
    requires Valid(s) && Synced(s) && n >= |s.undoStack| - 1
    ensures UndoN(s, n) == s.(text := "", undoStack := [""], redoStack := s.undoStack[1..] + s.redoStack)
    ensures Undo(UndoN(s, n)) == UndoN(s, n)
  {
    var k := |s.undoStack| - 1;
    if n == k {
      UndoNShape(s, k);
      assert s.undoStack[..1] == [""];
    } else {
      UndoExhausts(s, n - 1);
    }
  }

  /** Undoing `n` times and then redoing `n` times gives back the state exactly. */
  lemma {:induction false} RedoNUndoN(s: EditorState, n: nat)
    requires Synced(s) && n < |s.undoStack|
    ensures RedoN(UndoN(s, n), n) == s
  {
    if n > 0 {
      var t := UndoN(s, n - 1);
      UndoNShape(s, n - 1);
      var k := |s.undoStack| - (n - 1);
      assert t.undoStack == s.undoStack[..k] && t.text == s.undoStack[k - 1];
      assert Synced(t) && CanUndo(t);
      UndoThenRedo(t);
      assert Redo(UndoN(s, n)) == t;
      RedoNUndoN(s, n - 1);
    }
  }

  // ---------------------------------------------------------------------
  // committed edits

  /** Consecutive entries differ, and the first differs from `top`. */
  ghost predicate ChangesFrom(top: string, ts: seq<string>) {
    (|ts| > 0 ==> ts[0] != top) && forall i :: 0 < i < |ts| ==> ts[i - 1] != ts[i]
  }

  /**
   * Edits that each get committed by their timer, each to a new text, add
   * exactly one undo entry per edit, in order: the boundary checkpoint of
   * the old buffer is absorbed because that buffer is already on top.
   */
  lemma {:induction false} CommittedEditsStack(s: EditorState, ts: seq<string>)
    requires Synced(s) && ChangesFrom(s.text, ts)
    ensures var r := CommittedEdits(s, ts);
      r.undoStack == s.undoStack + ts && Synced(r) && r.pending == (if ts == [] then s.pending else None)
    decreases |ts|
  {
    if ts == [] {
      assert s.undoStack + ts == s.undoStack;
    } else {
      var s1 := Fire(TextChange(s, ts[0]));
      assert ts[0] != s.text;
      assert TextChange(s, ts[0]).undoStack == s.undoStack;
      assert s1.undoStack == s.undoStack + [ts[0]];
      assert ChangesFrom(s1.text, ts[1..]) by {
        if |ts| > 1 {
          assert ts[1..][0] == ts[1];
        }
        forall i | 0 < i < |ts[1..]|
          ensures ts[1..][i - 1] != ts[1..][i]
        {
          assert ts[1..][i] == ts[i + 1];
        }
      }
      CommittedEditsStack(s1, ts[1..]);
      assert s.undoStack + [ts[0]] + ts[1..] == s.undoStack + ts;
    }
  }

  /**
   * From the initial state, `N` committed edits to new texts followed by
   * `j` undos (at most `N`) show the text of edit `N - j`, or the empty
   * text once every edit is undone.
   */
  lemma UndoAfterCommittedEdits(ts: seq<string>, j: nat)
    requires ChangesFrom("", ts) && j <= |ts|
    ensures UndoN(CommittedEdits(Init(), ts), j).text == ([""] + ts)[|ts| - j]
  {
    var r := CommittedEdits(Init(), ts);
    CommittedEditsStack(Init(), ts);
    UndoNShape(r, j);
  }

  // ---------------------------------------------------------------------
  // debounce coalescing

  /**
   * A burst of edits none of which ends at a word boundary changes neither
   * stack; only the buffer and the pending slot follow the burst, ending at
   * its last text.
   */
  lemma {:induction false} BurstCoalesces(s: EditorState, ts: seq<string>)
    requires |ts| > 0
    requires forall i :: 0 <= i < |ts| ==> !WordBoundary.IsWordBoundary(ts[i])
    ensures Edits(s, ts) == s.(text := Last(ts), pending := Some(Last(ts)))
    decreases |ts|
  {
    var s1 := TextChange(s, ts[0]);
    if |ts| > 1 {
      BurstCoalesces(s1, ts[1..]);
      assert Last(ts[1..]) == Last(ts);
    }
  }

  /**
   * When the timer fires after such a burst, the burst leaves at most one
   * checkpoint, and that checkpoint holds the burst's last text.
   */
  lemma BurstThenFire(s: EditorState, ts: seq<string>)
    requires Valid(s) && |ts| > 0
    requires forall i :: 0 <= i < |ts| ==> !WordBoundary.IsWordBoundary(ts[i])
    ensures var r := Fire(Edits(s, ts));
      r.undoStack == SaveState(s, Last(ts)).undoStack
      && r.redoStack == SaveState(s, Last(ts)).redoStack
      && |r.undoStack| <= |s.undoStack| + 1
      && Last(r.undoStack) == Last(ts)
      && r.text == Last(ts) && r.pending == None
  {
    BurstCoalesces(s, ts);
  }

  // ---------------------------------------------------------------------
  // a worked scenario

  /**
   * Type "a", then "a " before the timer fires: the boundary commits "a".
   * Undo then shows the entry below "a", the empty seed, not "a": undo
   * always restores the entry beneath the top. Redo brings "a " back and
   * commits it in place of "a".
   */
  lemma ScenarioBeforeTimer()
    ensures var s1 := TextChange(Init(), "a");
      s1.undoStack == [""] && s1.pending == Some("a")
    ensures var s2 := TextChange(TextChange(Init(), "a"), "a ");
      s2.undoStack == ["", "a"] && s2.text == "a " && s2.pending == Some("a ")
    ensures var s3 := Undo(TextChange(TextChange(Init(), "a"), "a "));
      s3.text == "" && s3.redoStack == ["a "] && s3.undoStack == [""]
    ensures var s4 := Redo(Undo(TextChange(TextChange(Init(), "a"), "a ")));
      s4.text == "a " && s4.redoStack == [] && s4.undoStack == ["", "a "]
  {
  }

  /**
   * The same edits with the timer firing before the undo, under this
   * model's rule that the callback checkpoints against the current undo
   * stack: the boundary checkpoint "a" survives, so undo shows "a".
   */
  lemma ScenarioAfterTimer()
    ensures var s2 := Fire(TextChange(TextChange(Init(), "a"), "a "));
      s2.undoStack == ["", "a", "a "] && s2.text == "a "
    ensures var s3 := Undo(Fire(TextChange(TextChange(Init(), "a"), "a ")));
      s3.text == "a" && s3.redoStack == ["a "]
    ensures var s4 := Redo(Undo(Fire(TextChange(TextChange(Init(), "a"), "a "))));
      s4.text == "a " && s4.redoStack == [] && s4.undoStack == ["", "a", "a "]
  {
  }

  /**
   * Undo then redo is not the identity when undo is disabled: after the
   * edit "a" is committed and undone, the state is `("", [""], ["a"])`;
   * undo does nothing and redo then shows "a".
   */
  lemma ScenarioDisabledUndoThenRedo()
    ensures var s := Undo(Fire(TextChange(Init(), "a")));
      s == EditorState("", [""], ["a"], None) && Redo(Undo(s)).text == "a" && Redo(Undo(s)) != s
  {
  }

  /**
   * Adjacent duplicates on the undo stack: commit "a" and "ab", edit back to
   * "a", then undo and redo. Undo shows "a" from below the top and redo
   * pushes "a" again, leaving `["", "a", "a"]`; the next undo shows "a" once
   * more.
   */
  lemma ScenarioAdjacentDuplicates()
    ensures var s := TextChange(CommittedEdits(Init(), ["a", "ab"]), "a");
      var r := Redo(Undo(s));
      r.undoStack == ["", "a", "a"] && r.text == "a" && Undo(r).text == "a"
  {
    var s1 := Fire(TextChange(Init(), "a"));
    assert s1 == EditorState("a", ["", "a"], [], None);
    assert CommittedEdits(Init(), ["a", "ab"]) == CommittedEdits(s1, ["ab"]);
    var s2 := Fire(TextChange(s1, "ab"));
    assert s2 == EditorState("ab", ["", "a", "ab"], [], None);
    assert CommittedEdits(s1, ["ab"]) == CommittedEdits(s2, []) == s2;
    var s3 := TextChange(s2, "a");
    assert s3 == EditorState("a", ["", "a", "ab"], [], Some("a"));
    assert Undo(s3) == EditorState("a", ["", "a"], ["a"], Some("a"));
  }

  // ---------------------------------------------------------------------
  // the timer callback as the editor's closures run it

  /**
   * The timer callback as the editor runs it: `saveState(c)` from the
   * render in which the edit happened, so it compares against and extends
   * `captured`, the undo stack of that render, and overwrites whatever the
   * undo stack has become since. With no change it sets nothing.
   */
  function FireWithCapturedStack(s: EditorState, captured: seq<string>): (r: EditorState)
    ensures r.pending == None && r.text == s.text
    ensures s.pending.Some? ==> r.undoStack == s.undoStack || r.undoStack == captured + [s.pending.value]
  {
    match s.pending
    case None => s
    case Some(c) =>
      if |captured| > 0 && Last(captured) == c then s.(pending := None)
      else s.(undoStack := captured + [c], redoStack := [], pending := None)
  }

  /**
   * The scenario with the callback reading the undo stack captured at the
   * "a " edit, which was `[""]`: firing overwrites the boundary checkpoint
   * "a" and leaves `["", "a "]`, so undo shows "" whether or not the timer
   * fired first.
   */
  lemma ScenarioAfterTimerCaptured()
    ensures var s2 := FireWithCapturedStack(TextChange(TextChange(Init(), "a"), "a "), [""]);
      s2.undoStack == ["", "a "] && s2.text == "a " && s2.pending == None
    ensures var s3 := Undo(FireWithCapturedStack(TextChange(TextChange(Init(), "a"), "a "), [""]));
      s3.text == "" && s3.redoStack == ["a "] && s3.undoStack == [""]
  {
  }

  /**
   * A boundary edit back to the text on top of the captured stack: from
   * `["", "x."]` with the buffer `"x.y"`, editing to `"x."` pushes `"x.y"`,
   * and the callback, finding `"x."` on top of the captured `["", "x."]`,
   * does nothing. The edited buffer is then not on top of the undo stack.
   */
  lemma ScenarioCapturedTopMatches()
    ensures var s := EditorState("x.y", ["", "x."], [], None);
      var r := FireWithCapturedStack(TextChange(s, "x."), s.undoStack);
      r.undoStack == ["", "x.", "x.y"] && r.text == "x." && r.pending == None && !Synced(r)
  {
  }

  /**
   * When the captured stack is the current one, as it is when nothing
   * touched the undo stack since the edit, the callback is `Fire`.
   */
  lemma FireCapturedAgrees(s: EditorState)
    ensures FireWithCapturedStack(s, s.undoStack) == Fire(s)
  {
  }
}

=== FILE: history_spec.dfy ===
/**
 * The history manager of the text editor as a pure state machine: the
 * buffer, the undo stack (oldest first, its last entry standing for the
 * committed state), the redo stack (next redo first) and the single
 * pending debounce slot. Each operation of the editor is a function from
 * the state before to the state after.
 *
 * Every operation acts on the current fields of one state. The editor it
 * models runs each callback on the values captured when the callback was
 * created (a timer callback sees the undo stack of the render in which the
 * edit happened); that staleness is deliberately not modelled. Under it the
 * callback can overwrite a boundary checkpoint pushed by the same edit, and
 * when the captured top already equals the edited text it does nothing, so
 * the edited buffer need not end on top of the undo stack.
 */
module HistorySpec {
  import opened Wrappers
  import WordBoundary

  datatype EditorState = EditorState(
    text: string,
    undoStack: seq<string>,
    redoStack: seq<string>,
    pending: Option<string>)

  /** A keyboard event as the key handler sees it: the Ctrl modifier and the key name. */
  datatype KeyEvent = KeyEvent(ctrlKey: bool, key: string)

  function Last(s: seq<string>): string
    requires |s| > 0
  {
    s[|s| - 1]
  }

  /** The state invariant: the undo stack is never empty and keeps its empty seed at the bottom. */
  ghost predicate Valid(s: EditorState) {
    |s.undoStack| >= 1 && s.undoStack[0] == ""
  }

  /** The buffer shows the committed state on top of the undo stack. */
  ghost predicate Synced(s: EditorState) {
    |s.undoStack| > 0 && s.text == Last(s.undoStack)
  }

  predicate CanUndo(s: EditorState) {
    |s.undoStack| > 1
  }

  predicate CanRedo(s: EditorState) {
    |s.redoStack| > 0
  }

  /** The initial state: empty buffer, undo stack seeded with the empty text, nothing pending. */
  function Init(): (s: EditorState)
    ensures Valid(s) && Synced(s)
    ensures !CanUndo(s) && !CanRedo(s) && s.pending == None
  {
    EditorState("", [""], [], None)
  }

  /**
   * The deduplicating checkpoint: push `c` and discard the redo branch,
   * unless `c` is already on top of the undo stack. On an empty stack the
   * top reads as `undefined`, which differs from every string.
   */
  function SaveState(s: EditorState, c: string): (r: EditorState)
    ensures |r.undoStack| > 0 && Last(r.undoStack) == c
    ensures r.text == s.text && r.pending == s.pending
    ensures r.redoStack == s.redoStack || r.redoStack == []
  {
    if |s.undoStack| > 0 && Last(s.undoStack) == c then s
    else s.(undoStack := s.undoStack + [c], redoStack := [])
  }

  /** Drop the top of the undo stack and show the entry below it; the buffer goes to the redo stack. */
  function Undo(s: EditorState): (r: EditorState)
    ensures r.undoStack <= s.undoStack && r.pending == s.pending
    ensures |r.undoStack| + |r.redoStack| == |s.undoStack| + |s.redoStack|
  {
    if |s.undoStack| <= 1 then s
    else
      var n := |s.undoStack|;
      s.(redoStack := [s.text] + s.redoStack,
         text := s.undoStack[n - 2],
         undoStack := s.undoStack[..n - 1])
  }

  /** Take the head of the redo stack, show it, and push it onto the undo stack. */
  function Redo(s: EditorState): (r: EditorState)
    ensures s.undoStack <= r.undoStack && r.pending == s.pending
    ensures |r.undoStack| + |r.redoStack| == |s.undoStack| + |s.redoStack|
  {
    if |s.redoStack| == 0 then s
    else
      var next := s.redoStack[0];
      s.(undoStack := s.undoStack + [next],
         text := next,
         redoStack := s.redoStack[1..])
  }

  /** The key handler: Ctrl+z undoes, Ctrl+y redoes, Backspace checkpoints the buffer. */
  function KeyDown(s: EditorState, e: KeyEvent): (r: EditorState)
    ensures r.pending == s.pending
    ensures |r.undoStack| + |r.redoStack| <= |s.undoStack| + |s.redoStack| + 1
  {
    if e.ctrlKey && e.key == "z" then Undo(s)
    else if e.ctrlKey && e.key == "y" then Redo(s)
    else if e.key == "Backspace" then SaveState(s, s.text)
    else s
  }

  /**
   * An edit of the buffer to `newText`: at a word boundary the old buffer is
   * checkpointed, the pending slot is re-armed with `newText`, and the
   * buffer becomes `newText`.
   */
  function TextChange(s: EditorState, newText: string): (r: EditorState)
    ensures r.text == newText && r.pending == Some(newText)
    ensures r.undoStack == s.undoStack || r.undoStack == s.undoStack + [s.text]
  {
    var s1 := if WordBoundary.IsWordBoundary(newText) then SaveState(s, s.text) else s;
    s1.(pending := Some(newText), text := newText)
  }

  /** The debounce timer firing: checkpoint the captured content and clear the slot. */
  function Fire(s: EditorState): (r: EditorState)
    ensures r.pending == None && r.text == s.text
    ensures s.pending.Some? ==> |r.undoStack| > 0 && Last(r.undoStack) == s.pending.value
  {
    match s.pending
    case None => s
    case Some(c) => SaveState(s, c).(pending := None)
  }

  // ---------------------------------------------------------------------
  // saveState

  /**
   * A checkpoint changes the state exactly when `c` differs from the top of
   * the undo stack; it then appends `c`, empties the redo stack and leaves
   * the buffer and the pending slot alone.
   */
  lemma SaveStateEffect(s: EditorState, c: string)
    requires Valid(s)
    ensures SaveState(s, c) == s <==> Last(s.undoStack) == c
    ensures Last(s.undoStack) != c ==>
      SaveState(s, c) == s.(undoStack := s.undoStack + [c], redoStack := [])
    ensures Last(SaveState(s, c).undoStack) == c
  {
  }

  /** Two checkpoints of the same content add at most one entry. */
  lemma SaveStateIdempotent(s: EditorState, c: string)
    ensures SaveState(SaveState(s, c), c) == SaveState(s, c)
    ensures |s.undoStack| <= |SaveState(s, c).undoStack| <= |s.undoStack| + 1
  {
  }

  // ---------------------------------------------------------------------
  // undo and redo

  /**
   * An enabled undo shows the entry below the top, prepends the old buffer
   * to the redo stack and removes exactly the last undo entry; afterwards
   * the buffer equals the new top of the undo stack.
   */
  lemma UndoEffect(s: EditorState)
    requires CanUndo(s)
    ensures var n := |s.undoStack|; var r := Undo(s);
      r.text == s.undoStack[n - 2]
      && r.redoStack == [s.text] + s.redoStack
      && r.undoStack == s.undoStack[..n - 1]
      && r.pending == s.pending
      && Synced(r)
  {
  }

  /** An enabled redo moves exactly one entry from the redo stack to the undo stack and shows it. */
  lemma RedoEffect(s: EditorState)
    requires CanRedo(s)
    ensures var r := Redo(s);
      r.text == s.redoStack[0]
      && r.undoStack == s.undoStack + [s.redoStack[0]]
      && r.redoStack == s.redoStack[1..]
      && r.pending == s.pending
      && |r.undoStack| + |r.redoStack| == |s.undoStack| + |s.redoStack|
      && Synced(r)
  {
  }

  /** Undo and redo change nothing exactly when they are disabled. */
  lemma DisabledIsNoOp(s: EditorState)
    ensures Undo(s) == s <==> !CanUndo(s)
    ensures Redo(s) == s <==> !CanRedo(s)
  {
  }

  /**
   * Redo right after an enabled undo restores the buffer, the redo stack and
   * the pending slot; it restores the whole state exactly when the buffer
   * showed the top of the undo stack beforehand.
   */
  lemma UndoThenRedo(s: EditorState)
    requires CanUndo(s)
    ensures Redo(Undo(s)).text == s.text
    ensures Redo(Undo(s)).redoStack == s.redoStack
    ensures Redo(Undo(s)).pending == s.pending
    ensures Redo(Undo(s)) == s <==> Synced(s)
  {
  }

  /**
   * When undo is disabled, undo followed by redo is just redo: whatever
   * waits at the head of the redo stack replaces the buffer, so the pair is
   * not the identity.
   */
  lemma DisabledUndoThenRedo(s: EditorState)
    requires !CanUndo(s) && CanRedo(s)
    ensures Redo(Undo(s)) == Redo(s)
    ensures Redo(Undo(s)).text == s.redoStack[0]
    ensures Redo(Undo(s)) != s
  {
  }

  /**
   * Redo pushes the restored text without the deduplicating check, so when
   * that text is already on top of the undo stack the stack ends with two
   * equal entries, and the next undo leaves the buffer as it is.
   */
  lemma RedoCanDuplicateTop(s: EditorState)
    requires CanRedo(s) && |s.undoStack| > 0 && Last(s.undoStack) == s.redoStack[0]
    ensures var r := Redo(s); var n := |r.undoStack|;
      n >= 2 && r.undoStack[n - 2] == r.undoStack[n - 1]
    ensures Undo(Redo(s)).text == Redo(s).text
  {
  }

  // ---------------------------------------------------------------------
  // key dispatch

  /**
   * Ctrl+z is undo and Ctrl+y is redo, and neither checkpoints; Backspace,
   * with or without Ctrl, checkpoints the buffer; any other key leaves the
   * state unchanged.
   */
  lemma KeyDownDispatch(s: EditorState, e: KeyEvent)
    ensures e.ctrlKey && e.key == "z" ==> KeyDown(s, e) == Undo(s)
    ensures e.ctrlKey && e.key == "y" ==> KeyDown(s, e) == Redo(s)
    ensures e.key == "Backspace" ==> KeyDown(s, e) == SaveState(s, s.text)
    ensures e.key != "Backspace" && !(e.ctrlKey && (e.key == "z" || e.key == "y")) ==>
      KeyDown(s, e) == s
  {
  }

  // ---------------------------------------------------------------------
  // edits and the debounce slot

  /**
   * An edit always ends with the new text in the buffer and in the pending
   * slot; it checkpoints the old buffer first exactly when the new text is
   * non-empty and ends in a character outside `[A-Za-z0-9_]`, and otherwise
   * leaves both stacks alone.
   */
  lemma TextChangeEffect(s: EditorState, newText: string)
    ensures var r := TextChange(s, newText);
      r.text == newText && r.pending == Some(newText)
    ensures var boundary := |newText| > 0 && !WordBoundary.IsWordChar(newText[|newText| - 1]);
      var r := TextChange(s, newText);
      (boundary ==> r.undoStack == SaveState(s, s.text).undoStack
                    && r.redoStack == SaveState(s, s.text).redoStack)
      && (!boundary ==> r.undoStack == s.undoStack && r.redoStack == s.redoStack)
  {
  }

  /** A boundary edit from a buffer not yet on top of the undo stack commits that buffer at once. */
  lemma BoundaryEditCommitsOldText(s: EditorState, newText: string)
    requires Valid(s)
    requires WordBoundary.IsWordBoundary(newText) && Last(s.undoStack) != s.text
    ensures TextChange(s, newText).undoStack == s.undoStack + [s.text]
    ensures TextChange(s, newText).redoStack == []
  {
  }

  /**
   * The timer firing with nothing pending changes nothing; otherwise it
   * checkpoints the captured content, which then lies on top of the undo
   * stack, and empties the slot.
   */
  lemma FireEffect(s: EditorState)
    ensures s.pending == None ==> Fire(s) == s
    ensures s.pending.Some? ==>
      Fire(s) == SaveState(s, s.pending.value).(pending := None)
      && Last(Fire(s).undoStack) == s.pending.value
  {
  }

  /** An edit whose timer then fires leaves the buffer committed on top of the undo stack. */
  lemma EditThenFireSyncs(s: EditorState, newText: string)
    ensures var r := Fire(TextChange(s, newText));
      Synced(r) && r.text == newText && r.pending == None
  {
  }

  /** Any checkpoint that an edit or a timer actually commits discards the redo branch. */
  lemma CommitDiscardsRedo(s: EditorState, newText: string)
    ensures var r := TextChange(s, newText);
      |r.undoStack| > |s.undoStack| ==> !CanRedo(r) && Redo(r) == r
    ensures var r := Fire(s);
      |r.undoStack| > |s.undoStack| ==> !CanRedo(r) && Redo(r) == r
  {
  }

  /**
   * An edit made right after an enabled undo does not discard the redo
   * branch: the boundary checkpoint of the buffer is absorbed, because
   * after undo the buffer is the top of the undo stack. Redo then replaces
   * the edited text with the undone one. The next checkpoint of a text other
   * than that top empties the redo stack: the edit's timer, a Backspace, or
   * a later boundary edit.
   */
  lemma EditAfterUndoKeepsRedo(s: EditorState, t: string, t2: string)
    requires CanUndo(s)
    ensures var r := TextChange(Undo(s), t);
      r.redoStack == [s.text] + s.redoStack && CanRedo(r) && Redo(r).text == s.text
    ensures t != Undo(s).text ==> Fire(TextChange(Undo(s), t)).redoStack == []
    ensures t != Undo(s).text ==>
      KeyDown(TextChange(Undo(s), t), KeyEvent(false, "Backspace")).redoStack == []
    ensures t != Undo(s).text && WordBoundary.IsWordBoundary(t2) ==>
      TextChange(TextChange(Undo(s), t), t2).redoStack == []
  {
  }

  // ---------------------------------------------------------------------
  // the invariant

  /** Every operation keeps the undo stack non-empty with its empty seed at the bottom. */
  lemma OperationsPreserveValid(s: EditorState, c: string, e: KeyEvent, newText: string)
    requires Valid(s)
    ensures Valid(SaveState(s, c))
    ensures Valid(Undo(s)) && Valid(Redo(s))
    ensures Valid(KeyDown(s, e))
    ensures Valid(TextChange(s, newText))
    ensures Valid(Fire(s))
  {
  }
}

=== FILE: word_boundary.dfy ===
/**
 * The word-boundary heuristic of the editor: the regular expression
 * `/[\s\W]/` tested against the last character of the new text.
 * The pattern has no `u` flag, so `\w` is exactly `[A-Za-z0-9_]`.
 * A `char` here is a Unicode scalar value, whereas the editor sees UTF-16
 * code units: a character outside the Basic Multilingual Plane is one
 * non-word `char` here, and it counts as a boundary just as its low
 * surrogate does in the editor.
 */
module WordBoundary {

  /** `\w`: an ASCII letter, digit or underscore. */
  predicate IsWordChar(c: char) {
    ('A' <= c <= 'Z') || ('a' <= c <= 'z') || ('0' <= c <= '9') || c == '_'
  }

  /** `\s`: the ECMAScript WhiteSpace and LineTerminator characters. */
  predicate IsSpace(c: char) {
    c == '\t' || c == '\n' || c == '\U{B}' || c == '\U{C}' || c == '\r' || c == ' '
    || c == '\U{A0}' || c == '\U{1680}' || ('\U{2000}' <= c <= '\U{200A}')
    || c == '\U{2028}' || c == '\U{2029}' || c == '\U{202F}' || c == '\U{205F}'
    || c == '\U{3000}' || c == '\U{FEFF}'
  }

  /** The character class `[\s\W]`. */
  predicate InClass(c: char) {
    IsSpace(c) || !IsWordChar(c)
  }

  /** `RegExp.prototype.test` for the one-class pattern: some character of `subject` is in the class. */
  predicate Test(subject: string) {
    |subject| > 0 && (InClass(subject[0]) || Test(subject[1..]))
  }

  /**
   * The string the regular expression sees for `newText[newText.length - 1]`:
   * the last character, or the coercion of `undefined` when the text is empty.
   */
  function LastCharSubject(newText: string): string {
    if |newText| == 0 then "undefined" else [newText[|newText| - 1]]
  }

  /** Every `\s` character is also a `\W` character, so `[\s\W]` is `\W`. */
  lemma SpaceIsNonWord(c: char)
    ensures IsSpace(c) ==> !IsWordChar(c)
    ensures InClass(c) <==> !IsWordChar(c)
  {
  }

  /** No character of "undefined" is in the class. */
  lemma UndefinedIsNotBoundary()
    ensures !Test("undefined")
  {
  }

  /**
   * The edit ends at a word boundary exactly when the new text is non-empty
   * and its last character is not a word character; the empty text is
   * never a boundary.
   */
  function IsWordBoundary(newText: string): (b: bool)
    ensures b <==> |newText| > 0 && !IsWordChar(newText[|newText| - 1])
  {
    if |newText| == 0 then
      UndefinedIsNotBoundary();
      Test(LastCharSubject(newText))
    else
      var last := newText[|newText| - 1];
      SpaceIsNonWord(last);
      assert LastCharSubject(newText) == [last];
      assert Test([last]) == InClass(last) by { assert [last][1..] == []; }
      Test(LastCharSubject(newText))
  }
}

=== FILE: wrappers.dfy ===
/** The optional value used for the pending debounce slot. */
module Wrappers {
  datatype Option<+T> = None | Some(value: T)
}
